=== FILE: README.md ===
# Database-augmented completion in curate-gpt, modelled in Dafny

curate-gpt's `DatabaseAugmentedCompletion` agent completes a structured object
from a partial one, or from a bare string. It works in these steps:

- It finds the target class: the explicit one, else the collection's object type, else `Thing`.
- It turns a string seed into `{context_property: seed}`.
- It searches the knowledge store with a serialisation of the seed.
- It turns each hit into a teaching example, skipping hits that have nothing to predict. The
  example's input renders the hit's feature fields, or all its unmasked non-empty string fields
  when there are none; its output is the hit's other truthy fields.
- It collects background documents from a document store, optionally adds one written by the
  language model, and frames them in a `BACKGROUND:` block.
- It asks the extractor for the object, then merges the seed's truthy values into the slots the
  extractor left empty.

`generate_all` runs this over a whole collection to fill one field. It filters objects by an
id allow-list and by "value already present", and yields one `PredictedFieldValue` per
object it completes.

The extraction side contributes three pieces:

- `AnnotatedObject`, the extractor's result record: a payload, annotations, and nested objects.
- Its `as_single_object` flattening.
- The extractor's lazily created, cached language model.

Files:

- `wrappers.dfy`: `Option` and `Result`.
- `sequences.dfy`: `FilterMap` and `Filter` over sequences, with their index and membership lemmas.
- `py_values.dfy`: Python values and their truthiness. A dict is an ordered list of entries, as
  Python dicts keep insertion order. Also `d.get`, `d[k] = v`, `str.join`, slicing and `str.strip`.
- `extractor.dfy` (module `Extraction`): `AnnotatedObject`, `as_single_object`, `text`, the
  language-model handle and the `Extractor` class with its cached `model`.
- `dac_agent.dfy` (module `DacAgent`): `_dict2str`, `complete` with its nested `generate_input_str`,
  and `generate_all`.

Collaborators whose code is not part of this model are parameters (oracles). They are:

- the store's `search`, `find` and `collection_metadata`;
- the extractor's `extract`;
- the language-model library's `get_model`, `get_key` and `prompt`;
- `yaml.safe_dump(..., sort_keys=True)`, a deterministic function from a value to text;
- Python's `str()`, which `_dict2str` applies to values.

Each loop of the source is a method. Its postcondition ties the result to a function over the
inputs, and lemmas prove the properties of that function. `complete` is `DacAgent.Complete`,
specified by `CompleteSpec`. `generate_all` is `DacAgent.GenerateAll`, specified by `BatchOf`
over the per-object step `RecordFor`.

Two branches of `complete` are written for string seeds that, by the time they run, no longer
exist: the `isinstance(seed, str)` branch of the search term (`dac_agent.py:142`) and the
`[context_property]` feature-field branch (`dac_agent.py:112-113`). The model follows what the
code does:

- The seed is rebound to a dict before the search term is built (`dac_agent.py:108` and `:142`).
  So the search term of a string seed is the serialisation of `{context_property: seed}`, never
  the raw string. The `isinstance(seed, str)` branch at line 142 cannot be taken
  (`DacAgent.SearchTermIsSerialised`).
- An empty string seed becomes `{context_property: ""}`, whose value is falsy. Its feature
  fields are therefore empty, not `[context_property]` (`DacAgent.FeatureFieldsOfSeed`).
  Examples are then rendered from all their unmasked string fields.

## Model

| member | source | states |
|---|---|---|
| PyValues.Lookup | src/curate_gpt/agents/dac_agent.py:204 | `d.get(k)` finds a value exactly when `k` is a key, and the value found is stored under `k` |
| PyValues.Set | src/curate_gpt/agents/dac_agent.py:205 | after `d[k] = v`, `k` maps to `v` and every other key keeps its value; an existing key keeps its place and a new key goes last; keys stay unique |
| PyValues.SliceTo | src/curate_gpt/agents/dac_agent.py:175 | `s[0:n]` is a prefix of `s`; for `n >= 0` its length is `min(n, len(s))`, for negative `n` it drops `-n` characters from the end |
| PyValues.Strip | src/curate_gpt/agents/dac_agent.py:132 | `strip()` yields a middle slice of the text with only whitespace removed on either side, and no whitespace at its edges |
| PyValues.JoinContains | src/curate_gpt/agents/dac_agent.py:31 | every part of `sep.join(parts)` occurs in the joined text, at the position the lemma returns |
| Sequences.FilterMapIndices | src/curate_gpt/agents/dac_agent.py:144-162 | a filter-and-transform loop keeps the order of its input: each output comes from an increasing input position, and every input that yields an output is represented |
| Sequences.FilterMembership | src/curate_gpt/agents/dac_agent.py:153 | a comprehension with a condition keeps exactly the elements that satisfy it |
| DacAgent.Dict2Str | src/curate_gpt/agents/dac_agent.py:26-31 | the loop yields the `k=v` tokens of the truthy entries, joined by `", "` |
| DacAgent.Dict2StrTokens | src/curate_gpt/agents/dac_agent.py:26-31 | each token is `k=str(v)` for a truthy entry; tokens keep dict order; no truthy entry is missed, so falsy entries never appear |
| DacAgent.ResolveTargetClass | src/curate_gpt/agents/dac_agent.py:97-103 | the explicit class wins when given; otherwise missing collection metadata is an error (exactly then); otherwise it is the metadata's object type, or `Thing` without one; never empty |
| DacAgent.NewAgent | src/curate_gpt/agents/dac_agent.py:61-67 | a new agent has a document size limit of 1000, a background document limit of 3 and the masked fields `["original_id"]` |
| DacAgent.DefaultArgs | src/curate_gpt/agents/dac_agent.py:69-79 | a call that gives only the seed has no target class, context property, collection, rules or mask, does not generate background, and merges |
| DacAgent.ContextProperty | src/curate_gpt/agents/dac_agent.py:105-106 | the context property is `label` unless one is given, and the given one otherwise |
| DacAgent.DefaultMaskAndContext | src/curate_gpt/agents/dac_agent.py:105-117 | for a freshly built agent and no mask or context property given, renderings mask `["original_id"]` and the context property is `label` |
| DacAgent.DefaultCallPrepare | src/curate_gpt/agents/dac_agent.py:61-117 | a call giving only the seed, to a freshly built agent, is prepared exactly when the store knows the unnamed collection, and then masks `["original_id"]` and uses `label` |
| DacAgent.NormalizeSeed | src/curate_gpt/agents/dac_agent.py:105-108 | a string seed becomes `{context_property: seed}`; other seeds are kept; the result is never a string |
| DacAgent.FeatureFieldsOfSeed | src/curate_gpt/agents/dac_agent.py:109-115 | the feature fields of a dict seed are exactly its keys with truthy values; a string seed gives `[context_property]` when non-empty and `[]` when empty |
| DacAgent.SearchTermIsSerialised | src/curate_gpt/agents/dac_agent.py:142 | the search term is always the serialisation of the normalised seed; for a string seed, that of `{context_property: seed}` |
| DacAgent.SelectKeysLookup | src/curate_gpt/agents/dac_agent.py:130 | `{k: obj[k] for k in feature_fields if k in obj}` holds a key exactly when it is requested and present, with the object's value |
| DacAgent.InputSelection | src/curate_gpt/agents/dac_agent.py:120-130 | with feature fields, only the feature fields present in the object are rendered; without, exactly the non-empty string entries under unmasked keys |
| DacAgent.RenderDict | src/curate_gpt/agents/dac_agent.py:131-135 | the rendering starts with `prefix target_class`; it is exactly `"{prefix} {target_class}:"` when the selection is empty; otherwise the stripped serialisation of the selection follows `with` |
| DacAgent.GenerateInputStr | src/curate_gpt/agents/dac_agent.py:119-139 | rendering fails exactly for inputs that are neither dict nor string, with an invalid-type error; a dict is rendered through its selection, and a string `s` as `"{prefix} {target_class} with {context_property} = {s}"` |
| DacAgent.PredictedPartEntries | src/curate_gpt/agents/dac_agent.py:153 | a hit's predicted part holds exactly its truthy entries under keys that are not feature fields |
| DacAgent.AssembleExamples | src/curate_gpt/agents/dac_agent.py:141-162 | the example loop yields the examples of the hits, skipping hits with nothing to predict |
| DacAgent.ExamplesFromHits | src/curate_gpt/agents/dac_agent.py:144-162 | examples keep search order; each has a non-empty object equal to its hit's predicted part and the hit's rendering as `text`; a hit is skipped only when nothing is left to predict |
| DacAgent.ExampleText | src/curate_gpt/agents/dac_agent.py:151-161 | an example's `text` annotation is its hit's rendering |
| DacAgent.ExamplesPredictable | src/curate_gpt/agents/dac_agent.py:153-162 | every example has a non-empty object with only truthy values under keys that are not feature fields |
| DacAgent.DocumentText | src/curate_gpt/agents/dac_agent.py:173-175 | a hit without `document` is a missing-key error and a non-string document is an error; a string document always succeeds, and its text is a prefix of the document, of length `min(limit, len)` for a non-negative limit |
| DacAgent.TruncatedDocumentsFailure | src/curate_gpt/agents/dac_agent.py:168-176 | once one document fails, collection fails with that error whatever follows |
| DacAgent.CollectDocuments | src/curate_gpt/agents/dac_agent.py:165-176 | the document loop yields the truncated documents in order, or the first failure |
| DacAgent.DocumentsTruncated | src/curate_gpt/agents/dac_agent.py:168-176 | collection succeeds exactly when every hit has a document text, giving one text per hit in order |
| DacAgent.DocumentsFirstFailure | src/curate_gpt/agents/dac_agent.py:168-176 | a failed collection reports the error of the first hit without a document text |
| DacAgent.Background | src/curate_gpt/agents/dac_agent.py:187-194 | there is no background exactly when there are no documents; otherwise it is `BACKGROUND:\n\n`, the documents joined by blank lines, then `\n---\n` |
| DacAgent.BackgroundFraming | src/curate_gpt/agents/dac_agent.py:187-191 | the block begins with the header and ends with the trailer, and every document occurs between them |
| DacAgent.MergeSeed | src/curate_gpt/agents/dac_agent.py:202-205 | the merge loop writes the seed's values into the extracted object as `Merged` describes |
| DacAgent.MergeStepKeepsTruthy | src/curate_gpt/agents/dac_agent.py:204 | one merge step never touches a key whose value is truthy |
| DacAgent.MergeProperties | src/curate_gpt/agents/dac_agent.py:202-205 | after merging, every truthy seed key is truthy in the result; already truthy values are kept; any changed or added key holds a truthy seed value, so falsy seed values add nothing |
| DacAgent.MergeUntouched | src/curate_gpt/agents/dac_agent.py:202-205 | keys the seed does not mention keep their value |
| DacAgent.MergeKeepsTruthyAfter | src/curate_gpt/agents/dac_agent.py:202-205 | a value that is truthy partway through the merge stays to the end |
| DacAgent.MergeFillsFromSeed | src/curate_gpt/agents/dac_agent.py:202-205 | with unique seed keys, an empty slot under a truthy seed key receives exactly the seed's value |
| DacAgent.Complete | src/curate_gpt/agents/dac_agent.py:69-206 | `complete` step by step computes `CompleteSpec` under the model the extractor yields at the call; the extractor's model is unchanged, and the cache is untouched unless background is generated |
| DacAgent.RequestExamples | src/curate_gpt/agents/dac_agent.py:144-201 | every example sent to the extractor has a non-empty object with only truthy values under non-feature keys |
| DacAgent.RequestBackground | src/curate_gpt/agents/dac_agent.py:165-201 | the request has no background exactly when the store gives no documents and none is generated; a generated document comes after the store's |
| DacAgent.CompleteMerge | src/curate_gpt/agents/dac_agent.py:195-206 | an extraction error is passed on; with `merge`, the completed object keeps the annotations, makes every truthy seed key truthy, fills empty slots with the seed's values, and keeps truthy extracted values; without `merge` the extracted object is returned unchanged |
| DacAgent.CompleteStringSeed | src/curate_gpt/agents/dac_agent.py:105-206 | completing a non-empty string seed with `merge` leaves a truthy value under the context property |
| DacAgent.CompleteErrors | src/curate_gpt/agents/dac_agent.py:97-177 | an unknown collection with no target class is an invalid-collection error; a seed that is neither dict nor string is an invalid-type error once the target class resolves and the store documents are read |
| DacAgent.BatchOfFailure | src/curate_gpt/agents/dac_agent.py:232-242 | once an object fails, the later objects change nothing |
| DacAgent.GenerateAll | src/curate_gpt/agents/dac_agent.py:208-249 | the loop over `find(collection, limit=100000)` yields the records of `BatchOf` for the per-object step with `collection` passed to `complete`; the extractor's model is unchanged |
| DacAgent.PredictField | src/curate_gpt/agents/dac_agent.py:233-249 | the loop body for one object computes its step `RecordFor` under the model the extractor yields at the call, leaving that model unchanged |
| DacAgent.BatchRecords | src/curate_gpt/agents/dac_agent.py:232-249 | records keep `find` order, each produced by its object's step; with no failure every object whose step yields a record is represented; a failure is some object's error |
| DacAgent.RecordSound | src/curate_gpt/agents/dac_agent.py:233-249 | a record carries its object's `id` and `original_id`, one of which is allowed when an allow-list is given; its current value is the object's prior value, empty when only missing values are wanted; its predicted value is the completed object's value |
| DacAgent.DefaultBatchOnlyMissing | src/curate_gpt/agents/dac_agent.py:208-241 | with the default `missing_only=True`, no record is yielded for an object whose field already holds a truthy value |
| DacAgent.RecordSkips | src/curate_gpt/agents/dac_agent.py:236-241 | an object with an `id` is skipped exactly when the allow-list rejects both its ids or its field is already truthy while only missing values are wanted |
| Extraction.AsSingleObject | src/curate_gpt/extract/extractor.py:27-33 | the flattening loops (with recursion into nested objects) compute `Flatten`: the payload copy, then each annotation written under its underscored key, then each nested object written under its key, in that order |
| Extraction.FlattenedKeyValues | src/curate_gpt/extract/extractor.py:31-32 | the nested entries carry the `key_values` keys, in order |
| Extraction.FlattenedEntry | src/curate_gpt/extract/extractor.py:31-32 | each nested entry pairs its key with the nested object's own flattening |
| Extraction.FlattenAnnotation | src/curate_gpt/extract/extractor.py:29-30 | every annotation `k` appears under `_k` with its value unless a nested object takes that name |
| Extraction.FlattenKeyValue | src/curate_gpt/extract/extractor.py:31-32 | every nested object appears under its key as its own flattening, overriding payload and annotation keys |
| Extraction.FlattenObjectKey | src/curate_gpt/extract/extractor.py:28-32 | a payload key keeps its value unless an underscored annotation or a nested key collides with it |
| Extraction.FlattenKeys | src/curate_gpt/extract/extractor.py:27-33 | the flat dict's keys are exactly the payload keys, the underscored annotation keys and the nested keys |
| Extraction.Text | src/curate_gpt/extract/extractor.py:35-37 | `text` is the `text` annotation when present, else `None` |
| Extraction.ModelNameOrDefault | src/curate_gpt/extract/extractor.py:73 | the model name is the configured one, or `gpt-3.5-turbo` when none is set |
| Extraction.NewModel | src/curate_gpt/extract/extractor.py:73-75 | a new model is the registry's model for that name; when it needs a key, only its key differs, set to the key store's answer; otherwise it is the registry's model unchanged |
| Extraction.Extractor.Model | src/curate_gpt/extract/extractor.py:64-77 | the first access creates and caches the model; later accesses return the cached model unchanged |

## Left out

- Floating-point values, and Python dicts whose keys are not strings, are not modelled. `relevance_factor` (an MMR weight) is only passed to the store and does not appear.
- The `**kwargs` that `complete` passes to the store search, and that `generate_all` passes to `complete`, are not modelled. The example search gets no limit (`None`), and `generate_all` passes the remaining `complete` arguments as one record.
- `fields_to_predict` (unused by `complete`), the `conversation` and `conversation_mode` fields, and logging are not modelled.
- YAML syntax, `str()` formatting, language-model responses and the extractor's `extract` are not modelled; they are parameters.
- Pydantic validation of `PredictedFieldValue` (for example, that `id` is a string) and of `AnnotatedObject` is not modelled.
- `schemaview` and `pydantic_root_model` are not modelled; they delegate to a schema proxy, which is not part of this model.
- `AnnotatedObject` is a value, so `as_single_object` cannot change its receiver's payload; the copy holds by construction. Aliasing between the extracted object and other references is not modelled, and the merge's in-place update of `ao.object` is a new `AnnotatedObject`.
- `generate_all` is a generator; the model returns the records yielded before the first error together with that error, and does not model laziness.
- DacAgent.DocumentText: a document that is not a string is an error as soon as it is read. Python raises later, when it slices the document or joins the documents, which can be after a background document is generated. The model does not distinguish where the error arises.

=== FILE: dac_agent.dfy ===
/**
  * Database-augmented completion (src/curate_gpt/agents/dac_agent.py): a partially known
  * record (or a bare string) is completed by an extractor that is shown similar records from a
  * knowledge store as examples, optionally with background text; the seed's known fields are
  * then merged back into the extracted object. A batch mode completes one field over a whole
  * collection.
  */
module DacAgent {
  import opened Wrappers
  import opened Sequences
  import opened PyValues
  import opened Extraction

  const DEFAULT_TARGET_CLASS: string := "Thing"
  const DEFAULT_CONTEXT_PROPERTY: string := "label"
  const INPUT_PREFIX: string := "Structured representation of"
  const BACKGROUND_PREFIX: string := "Generate a comprehensive description about the"
  const BACKGROUND_HEADER: string := "BACKGROUND:\n\n"
  const BACKGROUND_SEPARATOR: string := "\n\n"
  const BACKGROUND_TRAILER: string := "\n---\n"
  const DOCUMENT_KEY: string := "document"
  const FIND_LIMIT: int := 100000
  const DEFAULT_MAX_BACKGROUND_DOCUMENT_SIZE: int := 1000
  const DEFAULT_BACKGROUND_DOCUMENT_LIMIT: int := 3
  const DEFAULT_MASKED_FIELDS: seq<string> := ["original_id"]

  /** One row of batch output: the object's identifiers and the field's value before and after. */
  datatype PredictedFieldValue = PredictedFieldValue(
    id: Value,
    originalId: Value,
    predictedValue: Value,
    currentValue: Value,
    fieldPredicted: string)

  /** The errors that `complete` and `generate_all` raise or let through. */
  datatype Error =
    | InvalidCollection(collection: Option<string>)  // no metadata for the collection
    | InvalidType(seed: Value)                       // a seed that is neither a dict nor a string
    | MissingKey(key: string)                        // a record without a required key
    | NotText(document: Value)                       // a background document that is not a string
    | ExtractionError(message: string)               // raised by the extractor

  /** What a store knows about a collection. */
  datatype CollectionMetadata = CollectionMetadata(objectType: Option<string>)

  /** A search or find hit: the stored object and its metadata (the score is not used). */
  datatype Hit = Hit(obj: Dict, metadata: Dict)

  /**
    * A knowledge store: `search(query, collection, limit)`, `find({}, collection, limit)` and
    * `collection_metadata(collection)`, each as the answer the store gives.
    */
  datatype Store = Store(
    search: (string, Option<string>, Option<int>) -> seq<Hit>,
    find: (Option<string>, int) -> seq<Hit>,
    collectionMetadata: Option<string> -> Option<CollectionMetadata>)

  /** The agent's configuration and collaborators. */
  datatype Agent = Agent(
    knowledgeSource: Store,
    extractor: Extractor,
    documentAdapter: Option<Store>,
    documentAdapterCollection: Option<string>,
    maxBackgroundDocumentSize: int,
    backgroundDocumentLimit: int,
    defaultMaskedFields: seq<string>)

  /** The keyword arguments of `complete`. */
  datatype CompleteArgs = CompleteArgs(
    targetClass: Option<string>,
    contextProperty: Option<string>,
    generateBackground: bool,
    collection: Option<string>,
    rules: Option<seq<string>>,
    fieldsToMask: Option<seq<string>>,
    merge: bool)

  const DEFAULT_MISSING_ONLY: bool := true

  /** An agent as the dataclass builds it, with the default size, limit and mask. */
  function NewAgent(
    knowledgeSource: Store, extractor: Extractor,
    documentAdapter: Option<Store>, documentAdapterCollection: Option<string>): (a: Agent)
    ensures a.knowledgeSource == knowledgeSource && a.extractor == extractor
    ensures a.documentAdapter == documentAdapter && a.documentAdapterCollection == documentAdapterCollection
    ensures a.maxBackgroundDocumentSize == 1000
    ensures a.backgroundDocumentLimit == 3
    ensures a.defaultMaskedFields == ["original_id"]
  {
    Agent(knowledgeSource, extractor, documentAdapter, documentAdapterCollection,
      DEFAULT_MAX_BACKGROUND_DOCUMENT_SIZE, DEFAULT_BACKGROUND_DOCUMENT_LIMIT, DEFAULT_MASKED_FIELDS)
  }

  /** The arguments of a `complete` call that passes only the seed. */
  function DefaultArgs(): (args: CompleteArgs)
    ensures args.targetClass.None? && args.contextProperty.None? && args.collection.None?
    ensures args.rules.None? && args.fieldsToMask.None?
    ensures !args.generateBackground
    ensures args.merge
  {
    CompleteArgs(None, None, false, None, None, None, true)
  }

  /** Library functions the agent calls: `yaml.safe_dump(..., sort_keys=True)` and the language models. */
  datatype Env = Env(dump: Value -> string, llm: Llm)

  // ---------------------------------------------------------------------------------------
  // _dict2str

  /** The `k=v` token of an entry, for truthy values only; `show` is Python's `str`. */
  function TokenOf(show: Value -> string): ((string, Value)) -> Option<string>
  {
    (e: (string, Value)) => if Truthy(e.1) then Some(e.0 + "=" + show(e.1)) else None
  }

  /** `_dict2str`: the `k=v` tokens of the truthy entries, joined by commas. */
  method Dict2Str(d: Dict, show: Value -> string) returns (r: string)
    ensures r == Join(", ", FilterMap(d, TokenOf(show)))
  {
    var toks: seq<string> := [];
    for i := 0 to |d|
      invariant toks == FilterMap(d[..i], TokenOf(show))
    {
      var (k, v) := d[i];
      assert d[..i + 1] == d[..i] + [d[i]];
      FilterMapSnoc(d[..i], d[i], TokenOf(show));
      if Truthy(v) {
        toks := toks + [k + "=" + show(v)];
      }
    }
    assert d[..|d|] == d;
    r := Join(", ", toks);
  }

  /**
    * The tokens `_dict2str` joins are exactly those of the truthy entries, in dict order: each
    * token is `k=v` for a truthy entry, positions increase, and no truthy entry is missed.
    */
  lemma Dict2StrTokens(d: Dict, show: Value -> string) returns (idx: seq<nat>)
    ensures |idx| == |FilterMap(d, TokenOf(show))|
    ensures forall j :: 0 <= j < |idx| ==>
      idx[j] < |d| && Truthy(d[idx[j]].1)
      && FilterMap(d, TokenOf(show))[j] == d[idx[j]].0 + "=" + show(d[idx[j]].1)
    ensures forall j, j' :: 0 <= j < j' < |idx| ==> idx[j] < idx[j']
    ensures forall i :: 0 <= i < |d| && Truthy(d[i].1) ==> i in idx
  {
    idx := FilterMapIndices(d, TokenOf(show));
  }

  // ---------------------------------------------------------------------------------------
  // Target class, context property, seed and feature fields

  /**
    * The target class: the explicit argument if given, otherwise the collection's object type,
    * otherwise `Thing`; a collection without metadata is an error when no class is given.
    */
  function ResolveTargetClass(
    explicit: Option<string>,
    metadata: Option<string> -> Option<CollectionMetadata>,
    collection: Option<string>): (r: Result<string, Error>)
    ensures TruthyText(explicit) ==> r == Ok(explicit.value)
    ensures r.Err? <==> !TruthyText(explicit) && metadata(collection).None?
    ensures r.Err? ==> r.error == InvalidCollection(collection)
    ensures !TruthyText(explicit) && metadata(collection).Some?
      && TruthyText(metadata(collection).value.objectType)
      ==> r == Ok(metadata(collection).value.objectType.value)
    ensures !TruthyText(explicit) && metadata(collection).Some?
      && !TruthyText(metadata(collection).value.objectType)
      ==> r == Ok(DEFAULT_TARGET_CLASS)
    ensures r.Ok? ==> r.value != ""
  {
    if TruthyText(explicit) then Ok(explicit.value)
    else
      match metadata(collection)
      case None => Err(InvalidCollection(collection))
      case Some(cm) =>
        if TruthyText(cm.objectType) then Ok(cm.objectType.value) else Ok(DEFAULT_TARGET_CLASS)
  }

  /** The context property: `label` unless one is given (an empty one is kept). */
  function ContextProperty(given: Option<string>): (r: string)
    ensures given.None? ==> r == "label"
    ensures given.Some? ==> r == given.value
  {
    if given.None? then DEFAULT_CONTEXT_PROPERTY else given.value
  }

  /** A string seed becomes `{context_property: seed}`; any other seed is kept. */
  function NormalizeSeed(seed: Value, contextProperty: string): (s: Value)
    ensures !s.Str?
    ensures seed.Str? ==> s == Map([(contextProperty, seed)])
    ensures !seed.Str? ==> s == seed
  {
    if seed.Str? then Map([(contextProperty, seed)]) else seed
  }

  /** Selects the keys of `d` whose values are truthy. */
  function HasTruthyValue(d: Dict): string -> bool
  {
    k => Truthy(Get(d, k))
  }

  /** The feature fields: the seed's keys with truthy values; for a non-dict, the context property. */
  function FeatureFields(seed: Value, contextProperty: string): seq<string>
  {
    if seed.Map? then Filter(Keys(seed.entries), HasTruthyValue(seed.entries))
    else if contextProperty != "" then [contextProperty]
    else []
  }

  /**
    * The feature fields of a normalised seed: for a dict, exactly its keys with truthy values;
    * for a string seed, the context property when the string is non-empty and nothing otherwise.
    */
  lemma FeatureFieldsOfSeed(seed: Value, contextProperty: string)
    ensures var s := NormalizeSeed(seed, contextProperty);
      s.Map? ==> forall k :: k in FeatureFields(s, contextProperty) <==>
        k in Keys(s.entries) && Truthy(Get(s.entries, k))
    ensures seed.Str? ==>
      FeatureFields(NormalizeSeed(seed, contextProperty), contextProperty)
        == if seed.s != "" then [contextProperty] else []
  {
    var s := NormalizeSeed(seed, contextProperty);
    if s.Map? {
      FilterMembership(Keys(s.entries), HasTruthyValue(s.entries));
    }
    if seed.Str? {
      var ks := Keys(s.entries);
      assert ks == [contextProperty];
      assert ks[..0] == [];
      assert Get(s.entries, contextProperty) == seed;
    }
  }

  /**
    * The search term: the seed itself if it is a string, else its serialisation. The seed is
    * normalised first, so a string seed is serialised as `{context_property: seed}`.
    */
  function SearchTerm(seed: Value, dump: Value -> string): string
  {
    if seed.Str? then seed.s else dump(seed)
  }

  /** The search term of a normalised seed is always the serialised dict (or other value). */
  lemma SearchTermIsSerialised(seed: Value, contextProperty: string, dump: Value -> string)
    ensures SearchTerm(NormalizeSeed(seed, contextProperty), dump) == dump(NormalizeSeed(seed, contextProperty))
    ensures seed.Str? ==> SearchTerm(NormalizeSeed(seed, contextProperty), dump) == dump(Map([(contextProperty, seed)]))
  {
  }

  // ---------------------------------------------------------------------------------------
  // generate_input_str

  /** What the nested `generate_input_str` closes over. */
  datatype RenderContext = RenderContext(
    featureFields: seq<string>,
    fieldsToMask: seq<string>,
    targetClass: string,
    contextProperty: string,
    dump: Value -> string)

  /** Entries shown when no feature fields are known: non-empty strings under unmasked keys. */
  function Describable(fieldsToMask: seq<string>): ((string, Value)) -> bool
  {
    (e: (string, Value)) => Truthy(e.1) && e.1.Str? && e.0 !in fieldsToMask
  }

  /** `{k: d[k] for k in keys if k in d}`. */
  function SelectKeys(d: Dict, keys: seq<string>): Dict
  {
    if keys == [] then []
    else
      var n := |keys| - 1;
      var acc := SelectKeys(d, keys[..n]);
      match Lookup(d, keys[n])
      case Some(v) => Set(acc, keys[n], v)
      case None => acc
  }

  /** A key is in the selection exactly when it is requested and present, with its value. */
  lemma {:induction false} SelectKeysLookup(d: Dict, keys: seq<string>, k: string)
    ensures Lookup(SelectKeys(d, keys), k) == if k in keys then Lookup(d, k) else None
  {
    if keys != [] {
      var n := |keys| - 1;
      assert keys == keys[..n] + [keys[n]];
      SelectKeysLookup(d, keys[..n], k);
    }
  }

  /** The sub-dict `generate_input_str` renders. */
  function SelectInput(ctx: RenderContext, d: Dict): Dict
  {
    if ctx.featureFields == [] then Filter(d, Describable(ctx.fieldsToMask))
    else SelectKeys(d, ctx.featureFields)
  }

  /**
    * What is rendered: with feature fields, exactly the feature fields present in the object,
    * with their values; without, exactly the non-empty string entries under unmasked keys.
    */
  lemma InputSelection(ctx: RenderContext, d: Dict)
    ensures ctx.featureFields != [] ==>
      forall k :: Lookup(SelectInput(ctx, d), k) == (if k in ctx.featureFields then Lookup(d, k) else None)
    ensures ctx.featureFields == [] ==> forall e :: e in SelectInput(ctx, d) <==>
      e in d && e.1.Str? && e.1.s != "" && e.0 !in ctx.fieldsToMask
  {
    if ctx.featureFields != [] {
      forall k
        ensures Lookup(SelectInput(ctx, d), k) == if k in ctx.featureFields then Lookup(d, k) else None
      {
        SelectKeysLookup(d, ctx.featureFields, k);
      }
    } else {
      FilterMembership(d, Describable(ctx.fieldsToMask));
    }
  }

  /** `generate_input_str` on a dict. */
  function RenderDict(ctx: RenderContext, d: Dict, prefix: string): (r: string)
    ensures |r| > |prefix| + 1 + |ctx.targetClass|
    ensures r[..|prefix| + 1 + |ctx.targetClass|] == prefix + " " + ctx.targetClass
    ensures SelectInput(ctx, d) == [] <==> r == prefix + " " + ctx.targetClass + ":"
    ensures SelectInput(ctx, d) != [] ==>
      r == prefix + " " + ctx.targetClass + " with " + Strip(ctx.dump(Map(SelectInput(ctx, d))))
  {
    var head := prefix + " " + ctx.targetClass;
    var selected := SelectInput(ctx, d);
    if selected != [] then
      var r := head + " with " + Strip(ctx.dump(Map(selected)));
      assert r[|head|] == ' ';
      r
    else head + ":"
  }

  /**
    * `generate_input_str`: a dict is rendered through its selection, a string as
    * `context_property = obj`, and anything else is an error.
    */
  function GenerateInputStr(ctx: RenderContext, obj: Value, prefix: string): (r: Result<string, Error>)
    ensures r.Err? <==> !obj.Map? && !obj.Str?
    ensures r.Err? ==> r.error == InvalidType(obj)
    ensures obj.Map? ==> r == Ok(RenderDict(ctx, obj.entries, prefix))
    ensures obj.Str? ==> r == Ok(prefix + " " + ctx.targetClass + " with " + ctx.contextProperty + " = " + obj.s)
  {
    match obj
    case Map(d) => Ok(RenderDict(ctx, d, prefix))
    case Str(s) => Ok(prefix + " " + ctx.targetClass + " with " + ctx.contextProperty + " = " + s)
    case _ => Err(InvalidType(obj))
  }

  // ---------------------------------------------------------------------------------------
  // Teaching examples

  /** Entries worth predicting: truthy values under keys that are not feature fields. */
  function Predictable(featureFields: seq<string>): ((string, Value)) -> bool
  {
    (e: (string, Value)) => Truthy(e.1) && e.0 !in featureFields
  }

  /** The part of a hit the extractor is taught to predict. */
  function PredictedPart(d: Dict, featureFields: seq<string>): Dict
  {
    Filter(d, Predictable(featureFields))
  }

  /** The predicted part holds exactly the hit's truthy entries under non-feature keys. */
  lemma PredictedPartEntries(d: Dict, featureFields: seq<string>)
    ensures forall e :: e in PredictedPart(d, featureFields) <==>
      e in d && Truthy(e.1) && e.0 !in featureFields
  {
    FilterMembership(d, Predictable(featureFields));
  }

  /** The teaching example made from a hit, or nothing when it has nothing to predict. */
  function ExampleOf(ctx: RenderContext): Hit -> Option<AnnotatedObject>
  {
    (h: Hit) =>
      var predicted := PredictedPart(h.obj, ctx.featureFields);
      if predicted == [] then None
      else Some(AnnotatedObject(predicted, [("text", Str(RenderDict(ctx, h.obj, INPUT_PREFIX)))], []))
  }

  /** The teaching examples for a list of hits. */
  function Examples(ctx: RenderContext, hits: seq<Hit>): seq<AnnotatedObject>
  {
    FilterMap(hits, ExampleOf(ctx))
  }

  /** The example loop of `complete`: renders each hit, keeps its predictable part, skips empty ones. */
  method AssembleExamples(ctx: RenderContext, hits: seq<Hit>) returns (examples: seq<AnnotatedObject>)
    ensures examples == Examples(ctx, hits)
  {
    examples := [];
    for i := 0 to |hits|
      invariant examples == Examples(ctx, hits[..i])
    {
      assert hits[..i + 1] == hits[..i] + [hits[i]];
      FilterMapSnoc(hits[..i], hits[i], ExampleOf(ctx));
      var obj := hits[i].obj;
      var inputText := GenerateInputStr(ctx, Map(obj), INPUT_PREFIX);
      var predicted := PredictedPart(obj, ctx.featureFields);
      if predicted == [] {
        continue;
      }
      var example := AnnotatedObject(predicted, [("text", Str(inputText.value))], []);
      examples := examples + [example];
    }
    assert hits[..|hits|] == hits;
  }

  /**
    * The examples follow the hits in search order; each is non-empty, equals its hit restricted
    * to truthy non-feature entries, and has the hit's rendering as its text; a hit is skipped
    * only when it has nothing to predict.
    */
  lemma ExamplesFromHits(ctx: RenderContext, hits: seq<Hit>) returns (idx: seq<nat>)
    ensures |idx| == |Examples(ctx, hits)|
    ensures forall j, j' :: 0 <= j < j' < |idx| ==> idx[j] < idx[j']
    ensures forall j :: 0 <= j < |idx| ==>
      idx[j] < |hits|
      && Examples(ctx, hits)[j].obj != []
      && Examples(ctx, hits)[j].obj == PredictedPart(hits[idx[j]].obj, ctx.featureFields)
      && Text(Examples(ctx, hits)[j]) == Str(RenderDict(ctx, hits[idx[j]].obj, INPUT_PREFIX))
    ensures forall i :: 0 <= i < |hits| && PredictedPart(hits[i].obj, ctx.featureFields) != [] ==> i in idx
  {
    idx := FilterMapIndices(hits, ExampleOf(ctx));
    forall j | 0 <= j < |idx|
      ensures Text(Examples(ctx, hits)[j]) == Str(RenderDict(ctx, hits[idx[j]].obj, INPUT_PREFIX))
    {
      ExampleText(ctx, hits[idx[j]]);
    }
  }

  /** The text of a hit's example is the hit's rendering. */
  lemma ExampleText(ctx: RenderContext, h: Hit)
    requires ExampleOf(ctx)(h).Some?
    ensures Text(ExampleOf(ctx)(h).value) == Str(RenderDict(ctx, h.obj, INPUT_PREFIX))
  {
    var e := ExampleOf(ctx)(h).value;
    assert Keys(e.annotations) == ["text"];
  }

  /** Every example is non-empty and holds only truthy values under keys that are not feature fields. */
  lemma ExamplesPredictable(ctx: RenderContext, hits: seq<Hit>)
    ensures forall e :: e in Examples(ctx, hits) ==>
      e.obj != [] && forall kv :: kv in e.obj ==> Truthy(kv.1) && kv.0 !in ctx.featureFields
  {
    var examples := Examples(ctx, hits);
    var idx := FilterMapIndices(hits, ExampleOf(ctx));
    forall e | e in examples
      ensures e.obj != [] && forall kv :: kv in e.obj ==> Truthy(kv.1) && kv.0 !in ctx.featureFields
    {
      var j :| 0 <= j < |examples| && examples[j] == e;
      PredictedPartEntries(hits[idx[j]].obj, ctx.featureFields);
    }
  }

  // ---------------------------------------------------------------------------------------
  // Background

  /** A background document's text, cut to the size limit (Python slice `[0:limit]`). */
  function DocumentText(h: Hit, maxSize: int): (r: Result<string, Error>)
    ensures Lookup(h.metadata, DOCUMENT_KEY).None? ==> r == Err(MissingKey(DOCUMENT_KEY))
    ensures Lookup(h.metadata, DOCUMENT_KEY).Some? && !Lookup(h.metadata, DOCUMENT_KEY).value.Str? ==>
      r == Err(NotText(Lookup(h.metadata, DOCUMENT_KEY).value))
    ensures var source := Lookup(h.metadata, DOCUMENT_KEY);
      r.Ok? <==> source.Some? && source.value.Str?
    ensures r.Ok? ==>
      var source := Lookup(h.metadata, DOCUMENT_KEY);
      && source.Some? && source.value.Str?
      && |r.value| <= |source.value.s| && r.value == source.value.s[..|r.value|]
      && (0 <= maxSize ==> |r.value| == (if maxSize <= |source.value.s| then maxSize else |source.value.s|))
  {
    match Lookup(h.metadata, DOCUMENT_KEY)
    case None => Err(MissingKey(DOCUMENT_KEY))
    case Some(v) => if v.Str? then Ok(SliceTo(v.s, maxSize)) else Err(NotText(v))
  }

  /** The truncated documents of the hits, in order, or the first hit's error. */
  function TruncatedDocuments(hits: seq<Hit>, maxSize: int): Result<seq<string>, Error>
  {
    if hits == [] then Ok([])
    else
      var n := |hits| - 1;
      match TruncatedDocuments(hits[..n], maxSize)
      case Err(e) => Err(e)
      case Ok(docs) =>
        match DocumentText(hits[n], maxSize)
        case Err(e) => Err(e)
        case Ok(text) => Ok(docs + [text])
  }

  /** Once a prefix of the hits fails, the whole list fails the same way. */
  lemma {:induction false} TruncatedDocumentsFailure(hits: seq<Hit>, maxSize: int, i: nat)
    requires i <= |hits| && TruncatedDocuments(hits[..i], maxSize).Err?
    ensures TruncatedDocuments(hits, maxSize) == TruncatedDocuments(hits[..i], maxSize)
    decreases |hits| - i
  {
    if i < |hits| {
      var n := |hits| - 1;
      assert hits[..n][..i] == hits[..i];
      TruncatedDocumentsFailure(hits[..n], maxSize, i);
      assert hits[..|hits|] == hits;
    } else {
      assert hits[..i] == hits;
    }
  }

  /** The document loop of `complete`: reads each hit's document and truncates it. */
  method CollectDocuments(hits: seq<Hit>, maxSize: int) returns (r: Result<seq<string>, Error>)
    ensures r == TruncatedDocuments(hits, maxSize)
  {
    var docs: seq<string> := [];
    for i := 0 to |hits|
      invariant TruncatedDocuments(hits[..i], maxSize) == Ok(docs)
    {
      assert hits[..i + 1][..i] == hits[..i];
      var meta := hits[i].metadata;
      var document := Lookup(meta, DOCUMENT_KEY);
      if document.None? || !document.value.Str? {
        TruncatedDocumentsFailure(hits, maxSize, i + 1);
        return if document.None? then Err(MissingKey(DOCUMENT_KEY)) else Err(NotText(document.value));
      }
      var text := SliceTo(document.value.s, maxSize);
      docs := docs + [text];
    }
    assert hits[..|hits|] == hits;
    r := Ok(docs);
  }

  /**
    * Document collection succeeds exactly when every hit has a document text, and then yields
    * one text per hit, in order.
    */
  lemma {:induction false} DocumentsTruncated(hits: seq<Hit>, maxSize: int)
    ensures TruncatedDocuments(hits, maxSize).Ok? <==>
      forall i :: 0 <= i < |hits| ==> DocumentText(hits[i], maxSize).Ok?
    ensures TruncatedDocuments(hits, maxSize).Ok? ==>
      |TruncatedDocuments(hits, maxSize).value| == |hits|
      && forall i :: 0 <= i < |hits| ==>
        DocumentText(hits[i], maxSize) == Ok(TruncatedDocuments(hits, maxSize).value[i])
  {
    if hits != [] {
      var n := |hits| - 1;
      var prefix := hits[..n];
      DocumentsTruncated(prefix, maxSize);
      assert forall i :: 0 <= i < n ==> prefix[i] == hits[i];
    }
  }

  /** A failed collection reports the error of the first hit without a document text. */
  lemma {:induction false} DocumentsFirstFailure(hits: seq<Hit>, maxSize: int) returns (failed: nat)
    requires TruncatedDocuments(hits, maxSize).Err?
    ensures failed < |hits|
    ensures DocumentText(hits[failed], maxSize) == Err(TruncatedDocuments(hits, maxSize).error)
    ensures forall i :: 0 <= i < failed ==> DocumentText(hits[i], maxSize).Ok?
  {
    var n := |hits| - 1;
    var prefix := hits[..n];
    if TruncatedDocuments(prefix, maxSize).Err? {
      failed := DocumentsFirstFailure(prefix, maxSize);
      assert prefix[failed] == hits[failed];
      assert forall i :: 0 <= i < failed ==> prefix[i] == hits[i];
    } else {
      DocumentsTruncated(prefix, maxSize);
      assert forall i :: 0 <= i < n ==> prefix[i] == hits[i];
      failed := n;
    }
  }

  /** The documents a document store contributes, if the agent has one. */
  function StoreDocuments(agent: Agent, query: string): Result<seq<string>, Error>
  {
    match agent.documentAdapter
    case None => Ok([])
    case Some(store) =>
      TruncatedDocuments(
        store.search(query, agent.documentAdapterCollection, Some(agent.backgroundDocumentLimit)),
        agent.maxBackgroundDocumentSize)
  }

  /** The background block: nothing without documents, else the documents framed and separated. */
  function Background(docs: seq<string>): (r: Option<string>)
    ensures r.None? <==> docs == []
    ensures r.Some? ==> r.value == BACKGROUND_HEADER + Join(BACKGROUND_SEPARATOR, docs) + BACKGROUND_TRAILER
  {
    if docs == [] then None
    else Some(BACKGROUND_HEADER + Join(BACKGROUND_SEPARATOR, docs) + BACKGROUND_TRAILER)
  }

  /**
    * The background starts with the header, ends with the trailer, and every document occurs
    * between them; the lemma returns the document's position.
    */
  lemma BackgroundFraming(docs: seq<string>, i: nat) returns (p: nat)
    requires i < |docs|
    ensures Background(docs).Some?
    ensures var b := Background(docs).value;
      |BACKGROUND_HEADER| <= p && p + |docs[i]| + |BACKGROUND_TRAILER| <= |b|
      && b[p..p + |docs[i]|] == docs[i]
      && b[..|BACKGROUND_HEADER|] == BACKGROUND_HEADER
      && b[|b| - |BACKGROUND_TRAILER|..] == BACKGROUND_TRAILER
  {
    var joined := Join(BACKGROUND_SEPARATOR, docs);
    var q := JoinContains(BACKGROUND_SEPARATOR, docs, i);
    var b := Background(docs).value;
    p := |BACKGROUND_HEADER| + q;
    assert b[p..p + |docs[i]|] == joined[q..q + |docs[i]|];
  }

  // ---------------------------------------------------------------------------------------
  // Merge

  /** One step of the merge: a truthy seed value fills a key the result leaves empty. */
  function MergeStep(acc: Dict, e: (string, Value)): Dict
  {
    if Truthy(e.1) && !Truthy(Get(acc, e.0)) then Set(acc, e.0, e.1) else acc
  }

  /** The extracted object after merging the seed's entries in order. */
  function Merged(obj: Dict, seed: Dict): Dict
  {
    if seed == [] then obj
    else
      var n := |seed| - 1;
      MergeStep(Merged(obj, seed[..n]), seed[n])
  }

  /** The merge loop of `complete`, which writes into the extracted object. */
  method MergeSeed(obj: Dict, seed: Dict) returns (r: Dict)
    ensures r == Merged(obj, seed)
  {
    r := obj;
    for i := 0 to |seed|
      invariant r == Merged(obj, seed[..i])
    {
      assert seed[..i + 1][..i] == seed[..i];
      var (k, v) := seed[i];
      if Truthy(v) && !Truthy(Get(r, k)) {
        r := Set(r, k, v);
      }
    }
    assert seed[..|seed|] == seed;
  }

  /** A key whose value is truthy is never touched by a merge step. */
  lemma MergeStepKeepsTruthy(acc: Dict, e: (string, Value), k: string)
    requires Truthy(Get(acc, k))
    ensures Lookup(MergeStep(acc, e), k) == Lookup(acc, k)
  {
  }

  /**
    * After the merge every truthy seed entry has a truthy value in the result; values that were
    * already truthy are kept; and any value that changed came from a truthy seed entry.
    */
  lemma {:induction false} MergeProperties(obj: Dict, seed: Dict)
    ensures forall i :: 0 <= i < |seed| && Truthy(seed[i].1) ==> Truthy(Get(Merged(obj, seed), seed[i].0))
    ensures forall k :: Truthy(Get(obj, k)) ==> Lookup(Merged(obj, seed), k) == Lookup(obj, k)
    ensures forall k :: Lookup(Merged(obj, seed), k) != Lookup(obj, k) ==>
      exists i :: (0 <= i < |seed| && seed[i].0 == k && Truthy(seed[i].1)
        && Lookup(Merged(obj, seed), k) == Some(seed[i].1))
  {
    if seed != [] {
      var n := |seed| - 1;
      var prev := seed[..n];
      var acc := Merged(obj, prev);
      var e := seed[n];
      MergeProperties(obj, prev);
      assert forall i :: 0 <= i < n ==> prev[i] == seed[i];
      forall i | 0 <= i < |seed| && Truthy(seed[i].1)
        ensures Truthy(Get(Merged(obj, seed), seed[i].0))
      {
        if i < n {
          if seed[i].0 != e.0 || Truthy(Get(acc, e.0)) || !Truthy(e.1) {
            assert Truthy(Get(acc, seed[i].0));
          }
        }
      }
      forall k | Truthy(Get(obj, k))
        ensures Lookup(Merged(obj, seed), k) == Lookup(obj, k)
      {
        MergeStepKeepsTruthy(acc, e, k);
      }
      forall k | Lookup(Merged(obj, seed), k) != Lookup(obj, k)
        ensures exists i :: (0 <= i < |seed| && seed[i].0 == k && Truthy(seed[i].1)
          && Lookup(Merged(obj, seed), k) == Some(seed[i].1))
      {
        if Lookup(Merged(obj, seed), k) != Lookup(acc, k) {
          assert seed[n].0 == k && Truthy(seed[n].1) && Lookup(Merged(obj, seed), k) == Some(seed[n].1);
        } else {
          var i :| 0 <= i < n && prev[i].0 == k && Truthy(prev[i].1) && Lookup(acc, k) == Some(prev[i].1);
          assert seed[i] == prev[i];
        }
      }
    }
  }

  /** Keys the seed does not mention keep their value through the merge. */
  lemma {:induction false} MergeUntouched(obj: Dict, seed: Dict, k: string)
    requires k !in Keys(seed)
    ensures Lookup(Merged(obj, seed), k) == Lookup(obj, k)
  {
    if seed != [] {
      var n := |seed| - 1;
      assert Keys(seed) == Keys(seed[..n]) + [seed[n].0];
      MergeUntouched(obj, seed[..n], k);
    }
  }

  /** With unique seed keys, a truthy seed value fills an empty slot with exactly that value. */
  lemma {:induction false} MergeFillsFromSeed(obj: Dict, seed: Dict, i: nat)
    requires UniqueKeys(seed) && i < |seed|
    requires Truthy(seed[i].1) && !Truthy(Get(obj, seed[i].0))
    ensures Lookup(Merged(obj, seed), seed[i].0) == Some(seed[i].1)
  {
    var k := seed[i].0;
    var prefix := seed[..i];
    assert forall j :: 0 <= j < i ==> Keys(prefix)[j] == seed[j].0 != k;
    MergeUntouched(obj, prefix, k);
    var filled := Merged(obj, seed[..i + 1]);
    assert seed[..i + 1][..i] == prefix;
    assert Lookup(filled, k) == Some(seed[i].1);
    MergeKeepsTruthyAfter(obj, seed, i + 1, k);
  }

  /** A value that is truthy after a prefix of the merge stays through the rest. */
  lemma {:induction false} MergeKeepsTruthyAfter(obj: Dict, seed: Dict, i: nat, k: string)
    requires i <= |seed| && Truthy(Get(Merged(obj, seed[..i]), k))
    ensures Lookup(Merged(obj, seed), k) == Lookup(Merged(obj, seed[..i]), k)
    decreases |seed| - i
  {
    if i < |seed| {
      var n := |seed| - 1;
      var prefix := seed[..n];
      assert prefix[..i] == seed[..i];
      MergeKeepsTruthyAfter(obj, prefix, i, k);
      var acc := Merged(obj, prefix);
      assert Get(acc, k) == Get(Merged(obj, seed[..i]), k);
      MergeStepKeepsTruthy(acc, seed[n], k);
      assert Merged(obj, seed) == MergeStep(acc, seed[n]);
    } else {
      assert seed[..i] == seed;
    }
  }

  // ---------------------------------------------------------------------------------------
  // complete

  /** The inputs of `complete` after resolving defaults. */
  datatype Prepared = Prepared(
    targetClass: string,
    contextProperty: string,
    seed: Value,
    featureFields: seq<string>,
    fieldsToMask: seq<string>,
    searchTerm: string)

  /** Target class, context property, normalised seed, feature fields, mask and search term. */
  function Prepare(agent: Agent, dump: Value -> string, seed: Value, args: CompleteArgs): Result<Prepared, Error>
  {
    match ResolveTargetClass(args.targetClass, agent.knowledgeSource.collectionMetadata, args.collection)
    case Err(e) => Err(e)
    case Ok(targetClass) =>
      var contextProperty := ContextProperty(args.contextProperty);
      var s := NormalizeSeed(seed, contextProperty);
      var mask := if args.fieldsToMask.Some? then args.fieldsToMask.value else agent.defaultMaskedFields;
      Ok(Prepared(targetClass, contextProperty, s, FeatureFields(s, contextProperty), mask, SearchTerm(s, dump)))
  }

  /** The rendering context of a prepared call. */
  function ContextOf(p: Prepared, dump: Value -> string): RenderContext
  {
    RenderContext(p.featureFields, p.fieldsToMask, p.targetClass, p.contextProperty, dump)
  }

  /** The documents of a prepared call: the store's, then the generated one if requested. */
  function Documents(agent: Agent, env: Env, model: LlmModel, p: Prepared, generateBackground: bool): Result<seq<string>, Error>
  {
    match StoreDocuments(agent, p.searchTerm)
    case Err(e) => Err(e)
    case Ok(docs) =>
      if !generateBackground then Ok(docs)
      else
        match GenerateInputStr(ContextOf(p, env.dump), p.seed, BACKGROUND_PREFIX)
        case Err(e) => Err(e)
        case Ok(prompt) => Ok(docs + [env.llm.prompt(model, prompt)])
  }

  /** The request `complete` sends to the extractor, or the error raised before it. */
  function Request(agent: Agent, env: Env, model: LlmModel, p: Prepared, args: CompleteArgs): Result<ExtractRequest, Error>
  {
    var ctx := ContextOf(p, env.dump);
    var examples := Examples(ctx, agent.knowledgeSource.search(p.searchTerm, args.collection, None));
    match StoreDocuments(agent, p.searchTerm)
    case Err(e) => Err(e)
    case Ok(_) =>
      match GenerateInputStr(ctx, p.seed, INPUT_PREFIX)
      case Err(e) => Err(e)
      case Ok(genText) =>
        match Documents(agent, env, model, p, args.generateBackground)
        case Err(e) => Err(e)
        case Ok(docs) => Ok(ExtractRequest(genText, p.targetClass, examples, Background(docs), args.rules))
  }

  /** `complete`: the extracted object, with the seed merged in when `merge` is set. */
  function CompleteSpec(agent: Agent, env: Env, model: LlmModel, seed: Value, args: CompleteArgs): Result<AnnotatedObject, Error>
  {
    match Prepare(agent, env.dump, seed, args)
    case Err(e) => Err(e)
    case Ok(p) =>
      match Request(agent, env, model, p, args)
      case Err(e) => Err(e)
      case Ok(request) =>
        match agent.extractor.extract(request)
        case Err(message) => Err(ExtractionError(message))
        case Ok(ao) =>
          if args.merge && p.seed.Map? then Ok(ao.(obj := Merged(ao.obj, p.seed.entries))) else Ok(ao)
  }

  /**
    * `complete`, step by step: resolve the target class, normalise the seed, gather examples and
    * documents, render the seed, optionally generate a background document with the extractor's
    * model, extract, and merge.
    */
  method Complete(agent: Agent, env: Env, seed: Value, args: CompleteArgs) returns (r: Result<AnnotatedObject, Error>)
    modifies agent.extractor`cachedModel
    ensures r == CompleteSpec(agent, env, old(agent.extractor.CurrentModel(env.llm)), seed, args)
    ensures agent.extractor.CurrentModel(env.llm) == old(agent.extractor.CurrentModel(env.llm))
    ensures !args.generateBackground ==> agent.extractor.cachedModel == old(agent.extractor.cachedModel)
  {
    ghost var model := agent.extractor.CurrentModel(env.llm);
    var prepared := Prepare(agent, env.dump, seed, args);
    if prepared.Err? {
      return Err(prepared.error);
    }
    var p := prepared.value;
    var ctx := ContextOf(p, env.dump);
    var examples := AssembleExamples(ctx, agent.knowledgeSource.search(p.searchTerm, args.collection, None));
    var docs: seq<string> := [];
    if agent.documentAdapter.Some? {
      var store := agent.documentAdapter.value;
      var collected := CollectDocuments(
        store.search(p.searchTerm, agent.documentAdapterCollection, Some(agent.backgroundDocumentLimit)),
        agent.maxBackgroundDocumentSize);
      if collected.Err? {
        return Err(collected.error);
      }
      docs := collected.value;
    }
    var genText := GenerateInputStr(ctx, p.seed, INPUT_PREFIX);
    if genText.Err? {
      return Err(genText.error);
    }
    if args.generateBackground {
      var prompt := GenerateInputStr(ctx, p.seed, BACKGROUND_PREFIX);
      var llmModel := agent.extractor.Model(env.llm);
      docs := docs + [env.llm.prompt(llmModel, prompt.value)];
    }
    var request := ExtractRequest(genText.value, p.targetClass, examples, Background(docs), args.rules);
    assert Request(agent, env, model, p, args) == Ok(request);
    var extracted := agent.extractor.extract(request);
    if extracted.Err? {
      return Err(ExtractionError(extracted.error));
    }
    var ao := extracted.value;
    if args.merge && p.seed.Map? {
      var merged := MergeSeed(ao.obj, p.seed.entries);
      ao := ao.(obj := merged);
    }
    r := Ok(ao);
  }

  /**
    * Every example sent to the extractor is non-empty and holds only truthy values under keys
    * that are not feature fields.
    */
  lemma RequestExamples(agent: Agent, env: Env, model: LlmModel, p: Prepared, args: CompleteArgs)
    requires Request(agent, env, model, p, args).Ok?
    ensures forall e :: e in Request(agent, env, model, p, args).value.examples ==>
      e.obj != [] && forall kv :: kv in e.obj ==> Truthy(kv.1) && kv.0 !in p.featureFields
  {
    ExamplesPredictable(ContextOf(p, env.dump), agent.knowledgeSource.search(p.searchTerm, args.collection, None));
  }

  /**
    * The request carries no background exactly when the store gives no documents and no
    * background is generated; otherwise it carries the framed documents, the store's first and
    * the generated one last.
    */
  lemma RequestBackground(agent: Agent, env: Env, model: LlmModel, p: Prepared, args: CompleteArgs)
    requires Request(agent, env, model, p, args).Ok?
    ensures StoreDocuments(agent, p.searchTerm).Ok?
    ensures var request := Request(agent, env, model, p, args).value;
      var stored := StoreDocuments(agent, p.searchTerm).value;
      && (request.backgroundText.None? <==> stored == [] && !args.generateBackground)
      && (args.generateBackground ==> exists generated :: request.backgroundText == Background(stored + [generated]))
      && (!args.generateBackground ==> request.backgroundText == Background(stored))
  {
    if args.generateBackground {
      var docs := Documents(agent, env, model, p, args.generateBackground).value;
      var stored := StoreDocuments(agent, p.searchTerm).value;
      assert docs == stored + [docs[|docs| - 1]];
    }
  }

  /**
    * With `merge`, every truthy seed entry has a truthy value in the completed object, and an
    * entry the extractor left empty holds the seed's value; without `merge`, the extracted object
    * is returned unchanged.
    */
  lemma CompleteMerge(agent: Agent, env: Env, model: LlmModel, seed: Value, args: CompleteArgs)
    ensures (Prepare(agent, env.dump, seed, args).Ok?
      && Request(agent, env, model, Prepare(agent, env.dump, seed, args).value, args).Ok?) ==>
      var p := Prepare(agent, env.dump, seed, args).value;
      var request := Request(agent, env, model, p, args).value;
      var completed := CompleteSpec(agent, env, model, seed, args);
      && p.seed.Map?
      && (agent.extractor.extract(request).Err? ==> completed == Err(ExtractionError(agent.extractor.extract(request).error)))
      && (agent.extractor.extract(request).Ok? && !args.merge ==> completed == Ok(agent.extractor.extract(request).value))
      && (agent.extractor.extract(request).Ok? && args.merge ==>
        var extracted := agent.extractor.extract(request).value;
        completed.Ok?
        && completed.value.annotations == extracted.annotations
        && completed.value.keyValues == extracted.keyValues
        && (forall i :: 0 <= i < |p.seed.entries| && Truthy(p.seed.entries[i].1) ==>
          Truthy(Get(completed.value.obj, p.seed.entries[i].0)))
        && (forall i :: (0 <= i < |p.seed.entries| && UniqueKeys(p.seed.entries)
          && Truthy(p.seed.entries[i].1) && !Truthy(Get(extracted.obj, p.seed.entries[i].0))) ==>
          Lookup(completed.value.obj, p.seed.entries[i].0) == Some(p.seed.entries[i].1))
        && (forall k :: Truthy(Get(extracted.obj, k)) ==> Lookup(completed.value.obj, k) == Lookup(extracted.obj, k)))
  {
    if Prepare(agent, env.dump, seed, args).Ok?
      && Request(agent, env, model, Prepare(agent, env.dump, seed, args).value, args).Ok?
    {
      var p := Prepare(agent, env.dump, seed, args).value;
      var request := Request(agent, env, model, p, args).value;
      assert GenerateInputStr(ContextOf(p, env.dump), p.seed, INPUT_PREFIX).Ok?;
      if agent.extractor.extract(request).Ok? && args.merge {
        var extracted := agent.extractor.extract(request).value;
        MergeProperties(extracted.obj, p.seed.entries);
        forall i | 0 <= i < |p.seed.entries| && UniqueKeys(p.seed.entries)
          && Truthy(p.seed.entries[i].1) && !Truthy(Get(extracted.obj, p.seed.entries[i].0))
          ensures Lookup(Merged(extracted.obj, p.seed.entries), p.seed.entries[i].0) == Some(p.seed.entries[i].1)
        {
          MergeFillsFromSeed(extracted.obj, p.seed.entries, i);
        }
      }
    }
  }

  /** A completed string seed keeps a truthy value under the context property. */
  lemma CompleteStringSeed(agent: Agent, env: Env, model: LlmModel, seed: Value, args: CompleteArgs)
    requires seed.Str? && seed.s != "" && args.merge
    ensures CompleteSpec(agent, env, model, seed, args).Ok? ==>
      Truthy(Get(CompleteSpec(agent, env, model, seed, args).value.obj, ContextProperty(args.contextProperty)))
  {
    if CompleteSpec(agent, env, model, seed, args).Ok? {
      var p := Prepare(agent, env.dump, seed, args).value;
      assert p.seed == Map([(ContextProperty(args.contextProperty), seed)]);
      CompleteMerge(agent, env, model, seed, args);
      assert Truthy(p.seed.entries[0].1);
    }
  }

  /**
    * Unless the caller gives a mask, the fields masked from example renderings are the agent's
    * default, which for a freshly built agent is `["original_id"]`; the context property defaults
    * to `label`.
    */
  lemma DefaultMaskAndContext(
    knowledgeSource: Store, extractor: Extractor, documentAdapter: Option<Store>,
    documentAdapterCollection: Option<string>, dump: Value -> string, seed: Value, args: CompleteArgs)
    requires args.fieldsToMask.None? && args.contextProperty.None?
    ensures var agent := NewAgent(knowledgeSource, extractor, documentAdapter, documentAdapterCollection);
      Prepare(agent, dump, seed, args).Ok? ==>
        Prepare(agent, dump, seed, args).value.fieldsToMask == ["original_id"]
        && Prepare(agent, dump, seed, args).value.contextProperty == "label"
  {
  }

  /**
    * A call that gives only the seed, to a freshly built agent: it is prepared exactly when the
    * store has metadata for the unnamed collection, and then masks `original_id` and uses `label`.
    */
  lemma DefaultCallPrepare(
    knowledgeSource: Store, extractor: Extractor, documentAdapter: Option<Store>,
    documentAdapterCollection: Option<string>, dump: Value -> string, seed: Value)
    ensures var agent := NewAgent(knowledgeSource, extractor, documentAdapter, documentAdapterCollection);
      var r := Prepare(agent, dump, seed, DefaultArgs());
      && (r.Ok? <==> knowledgeSource.collectionMetadata(None).Some?)
      && (r.Ok? ==> r.value.fieldsToMask == ["original_id"] && r.value.contextProperty == "label")
  {
    DefaultMaskAndContext(knowledgeSource, extractor, documentAdapter, documentAdapterCollection, dump, seed, DefaultArgs());
  }

  /**
    * `complete` fails for an unknown collection when no target class is given, and for a seed
    * that is neither a dict nor a string once the documents are gathered.
    */
  lemma CompleteErrors(agent: Agent, env: Env, model: LlmModel, seed: Value, args: CompleteArgs)
    ensures !TruthyText(args.targetClass) && agent.knowledgeSource.collectionMetadata(args.collection).None? ==>
      CompleteSpec(agent, env, model, seed, args) == Err(InvalidCollection(args.collection))
    ensures (Prepare(agent, env.dump, seed, args).Ok? && !seed.Map? && !seed.Str?
      && StoreDocuments(agent, Prepare(agent, env.dump, seed, args).value.searchTerm).Ok?) ==>
      CompleteSpec(agent, env, model, seed, args) == Err(InvalidType(seed))
  {
  }

  // ---------------------------------------------------------------------------------------
  // generate_all

  /** The records yielded before the run ended, and the error that ended it, if any. */
  datatype Batch = Batch(records: seq<PredictedFieldValue>, failure: Option<Error>)

  /** Python's `v in ids` for a list of strings. */
  predicate InIds(v: Value, ids: seq<string>)
  {
    v.Str? && v.s in ids
  }

  /** The per-object step of `generate_all`: a record, nothing (skipped), or an error. */
  function RecordFor(
    agent: Agent, env: Env, model: LlmModel, args: CompleteArgs,
    field: string, missingOnly: bool, ids: seq<string>, obj: Dict): Result<Option<PredictedFieldValue>, Error>
  {
    match Lookup(obj, "id")
    case None => Err(MissingKey("id"))
    case Some(id) =>
      var originalId := Get(obj, "original_id");
      if ids != [] && !InIds(id, ids) && !InIds(originalId, ids) then Ok(None)
      else
        var current := Get(obj, field);
        if missingOnly && Truthy(current) then Ok(None)
        else
          match CompleteSpec(agent, env, model, Map(obj), args)
          case Err(e) => Err(e)
          case Ok(ao) => Ok(Some(PredictedFieldValue(id, originalId, Get(ao.obj, field), current, field)))
  }

  /** The per-object step of `generate_all` for one call, as a function of the object. */
  function StepOf(
    agent: Agent, env: Env, model: LlmModel, args: CompleteArgs,
    field: string, missingOnly: bool, ids: seq<string>): Dict -> Result<Option<PredictedFieldValue>, Error>
  {
    (obj: Dict) => RecordFor(agent, env, model, args, field, missingOnly, ids, obj)
  }

  /** `generate_all` over a list of objects: the records of the steps, stopping at the first error. */
  function BatchOf(step: Dict -> Result<Option<PredictedFieldValue>, Error>, hits: seq<Hit>): Batch
  {
    if hits == [] then Batch([], None)
    else
      var n := |hits| - 1;
      var prev := BatchOf(step, hits[..n]);
      if prev.failure.Some? then prev
      else
        match step(hits[n].obj)
        case Err(e) => Batch(prev.records, Some(e))
        case Ok(None) => prev
        case Ok(Some(record)) => Batch(prev.records + [record], None)
  }

  /** One more object extends a batch that has not failed by that object's step. */
  lemma BatchOfStep(step: Dict -> Result<Option<PredictedFieldValue>, Error>, hits: seq<Hit>, i: nat)
    requires i < |hits| && BatchOf(step, hits[..i]).failure.None?
    ensures step(hits[i].obj).Err? ==>
      BatchOf(step, hits[..i + 1]) == Batch(BatchOf(step, hits[..i]).records, Some(step(hits[i].obj).error))
    ensures step(hits[i].obj) == Ok(None) ==> BatchOf(step, hits[..i + 1]) == BatchOf(step, hits[..i])
    ensures step(hits[i].obj).Ok? && step(hits[i].obj).value.Some? ==>
      BatchOf(step, hits[..i + 1]) == Batch(BatchOf(step, hits[..i]).records + [step(hits[i].obj).value.value], None)
  {
    assert hits[..i + 1][..i] == hits[..i];
  }

  /** Once the batch fails on a prefix, the rest of the objects change nothing. */
  lemma {:induction false} BatchOfFailure(step: Dict -> Result<Option<PredictedFieldValue>, Error>, hits: seq<Hit>, i: nat)
    requires i <= |hits| && BatchOf(step, hits[..i]).failure.Some?
    ensures BatchOf(step, hits) == BatchOf(step, hits[..i])
    decreases |hits| - i
  {
    if i < |hits| {
      var n := |hits| - 1;
      assert hits[..n][..i] == hits[..i];
      BatchOfFailure(step, hits[..n], i);
    } else {
      assert hits[..i] == hits;
    }
  }

  /**
    * `generate_all`: finds every object of the collection and yields a record for each object
    * that passes the id and missing-value filters, completing it first; an error ends the run.
    */
  method GenerateAll(
    agent: Agent, env: Env, collection: string, field: string,
    missingOnly: bool, ids: seq<string>, args: CompleteArgs) returns (b: Batch)
    modifies agent.extractor`cachedModel
    ensures b == BatchOf(
      StepOf(agent, env, old(agent.extractor.CurrentModel(env.llm)), args.(collection := Some(collection)), field, missingOnly, ids),
      agent.knowledgeSource.find(Some(collection), FIND_LIMIT))
    ensures agent.extractor.CurrentModel(env.llm) == old(agent.extractor.CurrentModel(env.llm))
  {
    ghost var model := agent.extractor.CurrentModel(env.llm);
    var completeArgs := args.(collection := Some(collection));
    ghost var step := StepOf(agent, env, model, completeArgs, field, missingOnly, ids);
    var hits := agent.knowledgeSource.find(Some(collection), FIND_LIMIT);
    b := Batch([], None);
    for i := 0 to |hits|
      invariant agent.extractor.CurrentModel(env.llm) == model
      invariant b == BatchOf(step, hits[..i])
      invariant b.failure.None?
    {
      var outcome := PredictField(agent, env, hits[i].obj, field, missingOnly, ids, completeArgs);
      assert outcome == step(hits[i].obj);
      BatchOfStep(step, hits, i);
      match outcome
      case Err(e) =>
        b := Batch(b.records, Some(e));
        BatchOfFailure(step, hits, i + 1);
        return;
      case Ok(None) =>
      case Ok(Some(record)) =>
        b := Batch(b.records + [record], None);
    }
    assert hits[..|hits|] == hits;
  }

  /**
    * The body of the `generate_all` loop for one object: reads its ids, applies the id and
    * missing-value filters, and completes it.
    */
  method PredictField(
    agent: Agent, env: Env, obj: Dict, field: string,
    missingOnly: bool, ids: seq<string>, args: CompleteArgs) returns (outcome: Result<Option<PredictedFieldValue>, Error>)
    modifies agent.extractor`cachedModel
    ensures outcome == RecordFor(agent, env, old(agent.extractor.CurrentModel(env.llm)), args, field, missingOnly, ids, obj)
    ensures agent.extractor.CurrentModel(env.llm) == old(agent.extractor.CurrentModel(env.llm))
  {
    var objId := Lookup(obj, "id");
    if objId.None? {
      return Err(MissingKey("id"));
    }
    var originalId := Get(obj, "original_id");
    if ids != [] && !InIds(objId.value, ids) && !InIds(originalId, ids) {
      return Ok(None);
    }
    var current := Get(obj, field);
    if missingOnly && Truthy(current) {
      return Ok(None);
    }
    var completed := Complete(agent, env, Map(obj), args);
    if completed.Err? {
      return Err(completed.error);
    }
    outcome := Ok(Some(PredictedFieldValue(objId.value, originalId, Get(completed.value.obj, field), current, field)));
  }

  /**
    * The records follow the objects in `find` order, each produced by its object's step; with
    * no failure, every object whose step yields a record is represented.
    */
  lemma {:induction false} BatchRecords(step: Dict -> Result<Option<PredictedFieldValue>, Error>, hits: seq<Hit>)
    returns (idx: seq<nat>)
    ensures |idx| == |BatchOf(step, hits).records|
    ensures forall j, j' :: 0 <= j < j' < |idx| ==> idx[j] < idx[j']
    ensures forall j :: 0 <= j < |idx| ==>
      idx[j] < |hits| && step(hits[idx[j]].obj) == Ok(Some(BatchOf(step, hits).records[j]))
    ensures BatchOf(step, hits).failure.None? ==>
      forall i :: 0 <= i < |hits| && step(hits[i].obj).Ok? && step(hits[i].obj).value.Some? ==> i in idx
    ensures BatchOf(step, hits).failure.Some? ==>
      exists i :: 0 <= i < |hits| && step(hits[i].obj) == Err(BatchOf(step, hits).failure.value)
  {
    if hits == [] {
      idx := [];
    } else {
      var n := |hits| - 1;
      var prefix := hits[..n];
      var prevIdx := BatchRecords(step, prefix);
      assert forall i :: 0 <= i < n ==> prefix[i] == hits[i];
      var prev := BatchOf(step, prefix);
      if prev.failure.None? && step(hits[n].obj).Ok? && step(hits[n].obj).value.Some? {
        idx := prevIdx + [n];
      } else {
        idx := prevIdx;
      }
      if BatchOf(step, hits).failure.Some? && prev.failure.Some? {
        var i :| 0 <= i < n && step(prefix[i].obj) == Err(prev.failure.value);
        assert step(hits[i].obj) == Err(BatchOf(step, hits).failure.value);
      }
    }
  }

  /**
    * What a record says about its object: its `id` and `original_id`, the id filter passed,
    * the prior value (empty when only missing values are wanted), and the completed value.
    */
  lemma RecordSound(
    agent: Agent, env: Env, model: LlmModel, args: CompleteArgs,
    field: string, missingOnly: bool, ids: seq<string>, obj: Dict)
    ensures (RecordFor(agent, env, model, args, field, missingOnly, ids, obj).Ok?
      && RecordFor(agent, env, model, args, field, missingOnly, ids, obj).value.Some?) ==>
      var record := RecordFor(agent, env, model, args, field, missingOnly, ids, obj).value.value;
      && Lookup(obj, "id") == Some(record.id)
      && record.originalId == Get(obj, "original_id")
      && (ids != [] ==> InIds(record.id, ids) || InIds(record.originalId, ids))
      && record.currentValue == Get(obj, field)
      && (missingOnly ==> !Truthy(record.currentValue))
      && record.fieldPredicted == field
      && CompleteSpec(agent, env, model, Map(obj), args).Ok?
      && record.predictedValue == Get(CompleteSpec(agent, env, model, Map(obj), args).value.obj, field)
  {
  }

  /**
    * With the default `missing_only`, `generate_all` yields no record for an object whose field
    * already holds a truthy value.
    */
  lemma DefaultBatchOnlyMissing(
    agent: Agent, env: Env, model: LlmModel, args: CompleteArgs,
    field: string, ids: seq<string>, hits: seq<Hit>)
    ensures var b := BatchOf(StepOf(agent, env, model, args, field, DEFAULT_MISSING_ONLY, ids), hits);
      forall j :: 0 <= j < |b.records| ==> !Truthy(b.records[j].currentValue)
  {
    var step := StepOf(agent, env, model, args, field, DEFAULT_MISSING_ONLY, ids);
    var b := BatchOf(step, hits);
    var idx := BatchRecords(step, hits);
    forall j | 0 <= j < |b.records|
      ensures !Truthy(b.records[j].currentValue)
    {
      RecordSound(agent, env, model, args, field, DEFAULT_MISSING_ONLY, ids, hits[idx[j]].obj);
    }
  }

  /** An object with an `id` is skipped exactly when the id filter or the missing-value filter rejects it. */
  lemma RecordSkips(
    agent: Agent, env: Env, model: LlmModel, args: CompleteArgs,
    field: string, missingOnly: bool, ids: seq<string>, obj: Dict)
    requires "id" in Keys(obj)
    ensures RecordFor(agent, env, model, args, field, missingOnly, ids, obj) == Ok(None) <==>
      (ids != [] && !InIds(Get(obj, "id"), ids) && !InIds(Get(obj, "original_id"), ids))
      || (missingOnly && Truthy(Get(obj, field)))
  {
  }
}

=== FILE: extractor.dfy ===
/**
  * The result record of schema-guided extraction and the extractor's lazily created
  * language model (src/curate_gpt/extract/extractor.py).
  */
module Extraction {
  import opened Wrappers
  import opened PyValues

  /**
    * An extracted object: the structured payload, annotations about it (at least its
    * `text`), and nested annotated objects stored under field names.
    */
  datatype AnnotatedObject = AnnotatedObject(
    obj: Dict,
    annotations: Dict,
    keyValues: seq<(string, AnnotatedObject)>)

  /** The annotation entries renamed with a leading underscore, in order. */
  function Underscored(annotations: Dict): Dict
  {
    seq(|annotations|, i requires 0 <= i < |annotations| => ("_" + annotations[i].0, annotations[i].1))
  }

  /** The names under which nested objects are stored. */
  function KeyValueKeys(kvs: seq<(string, AnnotatedObject)>): seq<string>
  {
    seq(|kvs|, i requires 0 <= i < |kvs| => kvs[i].0)
  }

  /**
    * The single flat dict of an annotated object: the payload, then every annotation under
    * its underscored key, then every nested object flattened under its own key.
    */
  function Flatten(ao: AnnotatedObject): Dict
    decreases ao, 1
  {
    SetAll(SetAll(ao.obj, Underscored(ao.annotations)), FlattenedKeyValues(ao))
  }

  /** The nested part of `Flatten`: each nested object's key with its flattening, in order. */
  function FlattenedKeyValues(ao: AnnotatedObject): (nested: Dict)
    ensures Keys(nested) == KeyValueKeys(ao.keyValues)
    decreases ao, 0
  {
    var kvs := ao.keyValues;
    seq(|kvs|, i requires 0 <= i < |kvs| =>
      (kvs[i].0, Map(Flatten(kvs[i].1))))
  }

  /** Each nested entry pairs the nested object's key with that object's own flattening. */
  lemma FlattenedEntry(ao: AnnotatedObject, i: nat)
    requires i < |ao.keyValues|
    ensures i < |FlattenedKeyValues(ao)|
    ensures FlattenedKeyValues(ao)[i] == (ao.keyValues[i].0, Map(Flatten(ao.keyValues[i].1)))
  {
  }

  /** `as_single_object`: copies the payload, then writes the annotations and the nested objects. */
  method AsSingleObject(ao: AnnotatedObject) returns (r: Dict)
    ensures r == Flatten(ao)
    decreases ao, 2
  {
    r := ao.obj;
    var annotated := Underscored(ao.annotations);
    var i := 0;
    while i < |ao.annotations|
      invariant 0 <= i <= |ao.annotations|
      invariant r == SetAll(ao.obj, annotated[..i])
    {
      var (key, value) := ao.annotations[i];
      assert annotated[..i + 1] == annotated[..i] + [("_" + key, value)];
      SetAllSnoc(ao.obj, annotated[..i], "_" + key, value);
      r := Set(r, "_" + key, value);
      i := i + 1;
    }
    assert annotated[..i] == annotated;
    var base := r;
    var j := 0;
    while j < |ao.keyValues|
      invariant 0 <= j <= |ao.keyValues|
      invariant r == SetAll(base, FlattenedKeyValues(ao)[..j])
    {
      var (key, sub) := ao.keyValues[j];
      assert ao.keyValues[j] in ao.keyValues;
      var flat := AsSingleObject(sub);
      NestedStep(ao, j, flat);
      SetAllSnoc(base, FlattenedKeyValues(ao)[..j], key, Map(flat));
      r := Set(r, key, Map(flat));
      j := j + 1;
    }
    assert FlattenedKeyValues(ao)[..j] == FlattenedKeyValues(ao);
  }

  /** One more nested object extends the assigned entries by its flattening. */
  lemma NestedStep(ao: AnnotatedObject, j: nat, flat: Dict)
    requires j < |ao.keyValues| && flat == Flatten(ao.keyValues[j].1)
    ensures FlattenedKeyValues(ao)[..j + 1] == FlattenedKeyValues(ao)[..j] + [(ao.keyValues[j].0, Map(flat))]
  {
    var nested := FlattenedKeyValues(ao);
    var entry := nested[j];
    assert entry == (ao.keyValues[j].0, Map(flat));
    assert nested[..j + 1] == nested[..j] + [entry];
  }

  /** Every annotation `k` appears as `_k` with its value, unless a nested object claims that name. */
  lemma FlattenAnnotation(ao: AnnotatedObject, i: nat)
    requires UniqueKeys(ao.annotations) && i < |ao.annotations|
    requires "_" + ao.annotations[i].0 !in KeyValueKeys(ao.keyValues)
    ensures Lookup(Flatten(ao), "_" + ao.annotations[i].0) == Some(ao.annotations[i].1)
  {
    var annotated := Underscored(ao.annotations);
    var nested := FlattenedKeyValues(ao);
    forall a, b | 0 <= a < b < |annotated|
      ensures annotated[a].0 != annotated[b].0
    {
      assert annotated[a].0 == "_" + ao.annotations[a].0;
      assert annotated[b].0 == "_" + ao.annotations[b].0;
      assert ("_" + ao.annotations[a].0)[1..] == ao.annotations[a].0;
      assert ("_" + ao.annotations[b].0)[1..] == ao.annotations[b].0;
    }
    SetAllWritten(ao.obj, annotated, i);
    SetAllUntouched(SetAll(ao.obj, annotated), nested, "_" + ao.annotations[i].0);
  }

  /** Every nested object `k` appears under `k` as its own flattening, overriding any other `k`. */
  lemma FlattenKeyValue(ao: AnnotatedObject, i: nat)
    requires UniqueKeys(FlattenedKeyValues(ao)) && i < |ao.keyValues|
    ensures Lookup(Flatten(ao), ao.keyValues[i].0) == Some(Map(Flatten(ao.keyValues[i].1)))
  {
    SetAllWritten(SetAll(ao.obj, Underscored(ao.annotations)), FlattenedKeyValues(ao), i);
  }

  /** A payload key keeps its value unless an underscored annotation or a nested object takes it. */
  lemma FlattenObjectKey(ao: AnnotatedObject, k: string)
    requires k !in Keys(Underscored(ao.annotations))
    requires k !in KeyValueKeys(ao.keyValues)
    ensures Lookup(Flatten(ao), k) == Lookup(ao.obj, k)
  {
    var nested := FlattenedKeyValues(ao);
    SetAllUntouched(ao.obj, Underscored(ao.annotations), k);
    SetAllUntouched(SetAll(ao.obj, Underscored(ao.annotations)), nested, k);
  }

  /** The flat dict has exactly the payload keys, the underscored annotation keys and the nested keys. */
  lemma FlattenKeys(ao: AnnotatedObject, k: string)
    ensures k in Keys(Flatten(ao)) <==>
      k in Keys(ao.obj) || k in Keys(Underscored(ao.annotations)) || k in KeyValueKeys(ao.keyValues)
  {
    var nested := FlattenedKeyValues(ao);
    SetAllKeys(ao.obj, Underscored(ao.annotations), k);
    SetAllKeys(SetAll(ao.obj, Underscored(ao.annotations)), nested, k);
  }

  /** The `text` property: the `text` annotation, or `None` when there is none. */
  function Text(ao: AnnotatedObject): (r: Value)
    ensures "text" in Keys(ao.annotations) ==> Lookup(ao.annotations, "text") == Some(r)
    ensures "text" !in Keys(ao.annotations) ==> r == Null
  {
    Get(ao.annotations, "text")
  }

  /** A language model handle as returned by the model registry. */
  datatype LlmModel = LlmModel(
    modelId: string,
    needsKey: Option<string>,
    keyEnvVar: Option<string>,
    key: Option<string>)

  /**
    * The language-model library: the model registry, the key store, and prompting a model
    * (the text of its response).
    */
  datatype Llm = Llm(
    getModel: string -> LlmModel,
    getKey: (Option<string>, Option<string>, Option<string>) -> Option<string>,
    prompt: (LlmModel, string) -> string)

  const DEFAULT_MODEL_NAME: string := "gpt-3.5-turbo"

  /** What the extractor asks of the extraction step: text, target class, examples, background and rules. */
  datatype ExtractRequest = ExtractRequest(
    text: string,
    targetClass: string,
    examples: seq<AnnotatedObject>,
    backgroundText: Option<string>,
    rules: Option<seq<string>>)

  /** The name of the model to create: the configured one, or the default when none is set. */
  function ModelNameOrDefault(modelName: Option<string>): (name: string)
    ensures TruthyText(modelName) ==> name == modelName.value
    ensures !TruthyText(modelName) ==> name == DEFAULT_MODEL_NAME
    ensures name != ""
  {
    if TruthyText(modelName) then modelName.value else DEFAULT_MODEL_NAME
  }

  /**
    * A fresh model: the registry's model for the named (or default) model; when it needs a key,
    * only its key is replaced, by the key store's answer.
    */
  function NewModel(modelName: Option<string>, apiKey: Option<string>, llm: Llm): (m: LlmModel)
    ensures var g := llm.getModel(ModelNameOrDefault(modelName));
      && m.(key := g.key) == g
      && (TruthyText(g.needsKey) ==> m.key == llm.getKey(apiKey, g.needsKey, g.keyEnvVar))
      && (!TruthyText(g.needsKey) ==> m == g)
  {
    var model := llm.getModel(ModelNameOrDefault(modelName));
    if TruthyText(model.needsKey) then
      model.(key := llm.getKey(apiKey, model.needsKey, model.keyEnvVar))
    else model
  }

  /**
    * The extractor: its extraction step (each kind of extractor supplies its own), the model
    * settings, and the model it created on first use.
    */
  class Extractor {
    const extract: ExtractRequest -> Result<AnnotatedObject, string>
    var modelName: Option<string>
    var apiKey: Option<string>
    var cachedModel: Option<LlmModel>

    constructor (extract: ExtractRequest -> Result<AnnotatedObject, string>, modelName: Option<string>, apiKey: Option<string>)
      ensures this.extract == extract && this.modelName == modelName && this.apiKey == apiKey
      ensures cachedModel == None
    {
      this.extract := extract;
      this.modelName := modelName;
      this.apiKey := apiKey;
      cachedModel := None;
    }

    /** The model that the `model` property yields in the current state. */
    function CurrentModel(llm: Llm): LlmModel
      reads this
    {
      if cachedModel.Some? then cachedModel.value else NewModel(modelName, apiKey, llm)
    }

    /** The `model` property: creates the model on first access, and returns the cached one after. */
    method Model(llm: Llm) returns (m: LlmModel)
      modifies this`cachedModel
      ensures m == old(CurrentModel(llm))
      ensures cachedModel == Some(m)
      ensures old(cachedModel).Some? ==> cachedModel == old(cachedModel)
      ensures CurrentModel(llm) == old(CurrentModel(llm))
    {
      if cachedModel.None? {
        var model := NewModel(modelName, apiKey, llm);
        cachedModel := Some(model);
      }
      m := cachedModel.value;
    }
  }
}

=== FILE: py_values.dfy ===
/**
  * Python values and dicts as the agent sees them: records are dicts with string keys whose
  * iteration order is insertion order, and "empty" values are recognised by Python truthiness.
  */
module PyValues {
  import opened Wrappers

  /** A Python value occurring in a record (floats are not modelled). */
  datatype Value =
    | Null
    | Str(s: string)
    | Int(i: int)
    | Bool(b: bool)
    | List(items: seq<Value>)
    | Map(entries: seq<(string, Value)>)

  /** A dict with string keys, as its entries in insertion order. */
  type Dict = seq<(string, Value)>

  /** Python truthiness: `None`, `""`, `0`, `False`, `[]` and `{}` are falsy. */
  predicate Truthy(v: Value)
  {
    match v
    case Null => false
    case Str(s) => s != ""
    case Int(i) => i != 0
    case Bool(b) => b
    case List(items) => items != []
    case Map(entries) => entries != []
  }

  /** `if x` on an optional string argument. */
  predicate TruthyText(o: Option<string>)
  {
    o.Some? && o.value != ""
  }

  /** The keys of a dict, in order. */
  function Keys(d: Dict): seq<string>
  {
    seq(|d|, i requires 0 <= i < |d| => d[i].0)
  }

  /** No key occurs twice: every dict built by Python has this shape. */
  predicate UniqueKeys(d: Dict)
  {
    forall i, j :: 0 <= i < j < |d| ==> d[i].0 != d[j].0
  }

  /** The position of the first occurrence of `k` in `ks`, or `|ks|` when there is none. */
  function IndexOf(ks: seq<string>, k: string): (i: nat)
    ensures i <= |ks|
    ensures i < |ks| ==> ks[i] == k
    ensures i == |ks| <==> k !in ks
    ensures forall j :: 0 <= j < i ==> ks[j] != k
  {
    if ks == [] then 0
    else if ks[0] == k then 0
    else 1 + IndexOf(ks[1..], k)
  }

  /** The properties of `IndexOf` determine it. */
  lemma IndexOfUnique(ks: seq<string>, k: string, i: nat)
    requires i <= |ks|
    requires i < |ks| ==> ks[i] == k
    requires i == |ks| ==> k !in ks
    requires forall j :: 0 <= j < i ==> ks[j] != k
    ensures IndexOf(ks, k) == i
  {
  }

  /** `d[k]` when `k in d`, else nothing. */
  function Lookup(d: Dict, k: string): (r: Option<Value>)
    ensures r.Some? <==> k in Keys(d)
    ensures r.Some? ==> (k, r.value) in d
  {
    var i := IndexOf(Keys(d), k);
    if i < |d| then Some(d[i].1) else None
  }

  /** Python's `d.get(k, None)`. */
  function Get(d: Dict, k: string): Value
  {
    match Lookup(d, k)
    case Some(v) => v
    case None => Null
  }

  /** Python's `d[k] = v`: an existing key keeps its position, a new key goes last. */
  function Set(d: Dict, k: string, v: Value): (r: Dict)
    ensures Lookup(r, k) == Some(v)
    ensures forall k' :: k' != k ==> Lookup(r, k') == Lookup(d, k')
    ensures k in Keys(d) ==> Keys(r) == Keys(d)
    ensures k !in Keys(d) ==> Keys(r) == Keys(d) + [k]
    ensures UniqueKeys(d) ==> UniqueKeys(r)
  {
    var i := IndexOf(Keys(d), k);
    if i < |d| then
      SetReplaceLookup(d, k, v, i);
      d[i := (k, v)]
    else
      var r := d + [(k, v)];
      assert Keys(r) == Keys(d) + [k];
      SetAppendLookup(d, k, v);
      r
  }

  /** Overwriting the first entry with key `k` keeps the key order and every other key. */
  lemma SetReplaceLookup(d: Dict, k: string, v: Value, i: nat)
    requires i == IndexOf(Keys(d), k) && i < |d|
    ensures Keys(d[i := (k, v)]) == Keys(d)
    ensures Lookup(d[i := (k, v)], k) == Some(v)
    ensures forall k' :: k' != k ==> Lookup(d[i := (k, v)], k') == Lookup(d, k')
    ensures UniqueKeys(d) ==> UniqueKeys(d[i := (k, v)])
  {
    var r := d[i := (k, v)];
    assert Keys(r) == Keys(d);
  }

  /** Appending an entry for a new key keeps every other key. */
  lemma SetAppendLookup(d: Dict, k: string, v: Value)
    requires k !in Keys(d)
    ensures Keys(d + [(k, v)]) == Keys(d) + [k]
    ensures Lookup(d + [(k, v)], k) == Some(v)
    ensures forall k' :: k' != k ==> Lookup(d + [(k, v)], k') == Lookup(d, k')
    ensures UniqueKeys(d) ==> UniqueKeys(d + [(k, v)])
  {
    var r := d + [(k, v)];
    forall i | 0 <= i < |d|
      ensures d[i].0 != k
    {
      assert Keys(d)[i] == d[i].0 && Keys(d)[i] in Keys(d);
    }
    assert Keys(r) == Keys(d) + [k];
    IndexOfUnique(Keys(r), k, |d|);
    forall k' | k' != k
      ensures Lookup(r, k') == Lookup(d, k')
    {
      var i := IndexOf(Keys(d), k');
      if i < |d| {
        IndexOfUnique(Keys(r), k', i);
      } else {
        IndexOfUnique(Keys(r), k', |r|);
      }
    }
  }

  /** Successive assignments `d[k] = v` for each entry of `es`, in order. */
  function SetAll(d: Dict, es: Dict): Dict
  {
    if es == [] then d
    else
      var n := |es| - 1;
      Set(SetAll(d, es[..n]), es[n].0, es[n].1)
  }

  /** One more assignment at the end. */
  lemma SetAllSnoc(d: Dict, es: Dict, k: string, v: Value)
    ensures SetAll(d, es + [(k, v)]) == Set(SetAll(d, es), k, v)
  {
    assert (es + [(k, v)])[..|es|] == es;
  }

  /** Keys that no assignment writes keep their value. */
  lemma {:induction false} SetAllUntouched(d: Dict, es: Dict, k: string)
    requires k !in Keys(es)
    ensures Lookup(SetAll(d, es), k) == Lookup(d, k)
  {
    if es != [] {
      var n := |es| - 1;
      assert Keys(es) == Keys(es[..n]) + [es[n].0];
      SetAllUntouched(d, es[..n], k);
    }
  }

  /** A prefix of a dict with unique keys has unique keys. */
  lemma UniqueKeysPrefix(d: Dict, n: nat)
    requires UniqueKeys(d) && n <= |d|
    ensures UniqueKeys(d[..n])
  {
    forall a, b | 0 <= a < b < n
      ensures d[..n][a].0 != d[..n][b].0
    {
      assert d[..n][a] == d[a] && d[..n][b] == d[b];
    }
  }

  /** With unique keys, every assignment's value is what the result holds for its key. */
  lemma {:induction false} SetAllWritten(d: Dict, es: Dict, i: nat)
    requires UniqueKeys(es) && i < |es|
    ensures Lookup(SetAll(d, es), es[i].0) == Some(es[i].1)
  {
    var n := |es| - 1;
    var prefix := es[..n];
    var acc := SetAll(d, prefix);
    assert SetAll(d, es) == Set(acc, es[n].0, es[n].1);
    if i < n {
      assert prefix[i] == es[i];
      UniqueKeysPrefix(es, n);
      SetAllWritten(d, prefix, i);
      assert es[n].0 != es[i].0;
    }
  }

  /** The keys after the assignments are the old keys and the assigned ones. */
  lemma {:induction false} SetAllKeys(d: Dict, es: Dict, k: string)
    ensures k in Keys(SetAll(d, es)) <==> k in Keys(d) || k in Keys(es)
  {
    if es != [] {
      var n := |es| - 1;
      assert Keys(es) == Keys(es[..n]) + [es[n].0];
      SetAllKeys(d, es[..n], k);
    }
  }

  /** Python's `sep.join(xs)`. */
  function Join(sep: string, xs: seq<string>): string
  {
    if |xs| == 0 then ""
    else if |xs| == 1 then xs[0]
    else Join(sep, xs[..|xs| - 1]) + sep + xs[|xs| - 1]
  }

  /**
    * Every joined part occurs in the joined text; the lemma returns its position.
    */
  lemma {:induction false} JoinContains(sep: string, xs: seq<string>, i: nat) returns (p: nat)
    requires i < |xs|
    ensures p + |xs[i]| <= |Join(sep, xs)|
    ensures Join(sep, xs)[p..p + |xs[i]|] == xs[i]
  {
    var n := |xs| - 1;
    var j := Join(sep, xs);
    if n == 0 {
      p := 0;
    } else if i == n {
      var pre := Join(sep, xs[..n]) + sep;
      assert j == pre + xs[n];
      p := |pre|;
    } else {
      assert xs[..n][i] == xs[i];
      p := JoinContains(sep, xs[..n], i);
      assert j == Join(sep, xs[..n]) + (sep + xs[n]);
    }
  }

  /** Python's slice `s[0:n]`: a negative stop counts from the end. */
  function SliceTo<T>(s: seq<T>, n: int): (r: seq<T>)
    ensures |r| <= |s| && r == s[..|r|]
    ensures 0 <= n ==> |r| == (if n <= |s| then n else |s|)
    ensures n < 0 ==> |r| == (if |s| + n >= 0 then |s| + n else 0)
  {
    if n >= 0 then (if n <= |s| then s[..n] else s)
    else if |s| + n >= 0 then s[..|s| + n]
    else []
  }

  /** `str.isspace` for a single character. */
  predicate IsSpace(c: char)
  {
    c == ' ' || c == '\t' || c == '\n' || c == '\r' || c == '\U{B}' || c == '\U{C}'
    || ('\U{1C}' <= c <= '\U{1F}') || c == '\U{85}' || c == '\U{A0}' || c == '\U{1680}'
    || ('\U{2000}' <= c <= '\U{200A}') || c == '\U{2028}' || c == '\U{2029}'
    || c == '\U{202F}' || c == '\U{205F}' || c == '\U{3000}'
  }

  /** The number of whitespace characters at the start of `s`. */
  function LeadingSpace(s: string): (n: nat)
    ensures n <= |s|
    ensures forall i :: 0 <= i < n ==> IsSpace(s[i])
    ensures n < |s| ==> !IsSpace(s[n])
  {
    if s == [] || !IsSpace(s[0]) then 0 else 1 + LeadingSpace(s[1..])
  }

  /** The number of whitespace characters at the end of `s`. */
  function TrailingSpace(s: string): (n: nat)
    ensures n <= |s|
    ensures forall i :: |s| - n <= i < |s| ==> IsSpace(s[i])
    ensures n < |s| ==> !IsSpace(s[|s| - n - 1])
  {
    if s == [] || !IsSpace(s[|s| - 1]) then 0 else 1 + TrailingSpace(s[..|s| - 1])
  }

  /** Python's `s.strip()`: the middle of `s` without surrounding whitespace. */
  function Strip(s: string): (r: string)
    ensures r == [] || (!IsSpace(r[0]) && !IsSpace(r[|r| - 1]))
    ensures exists i, j :: (0 <= i <= j <= |s| && r == s[i..j]
      && (forall k :: 0 <= k < i ==> IsSpace(s[k]))
      && (forall k :: j <= k < |s| ==> IsSpace(s[k])))
  {
    var i := LeadingSpace(s);
    var t := s[i..];
    var j := TrailingSpace(t);
    assert t[..|t| - j] == s[i..i + |t| - j];
    t[..|t| - j]
  }
}

=== FILE: sequences.dfy ===
/** Order-preserving filtering of sequences, the shape of Python list and dict comprehensions. */
module Sequences {
  import opened Wrappers

  /** Keeps, in order, the image of every element that `f` maps to `Some`. */
  function FilterMap<A, B>(s: seq<A>, f: A -> Option<B>): (r: seq<B>)
    ensures |r| <= |s|
  {
    if s == [] then []
    else
      var n := |s| - 1;
      FilterMap(s[..n], f) + (match f(s[n]) case Some(b) => [b] case None => [])
  }

  /** The step of `FilterMap` on one more element at the end. */
  lemma FilterMapSnoc<A, B>(s: seq<A>, x: A, f: A -> Option<B>)
    ensures FilterMap(s + [x], f) == FilterMap(s, f) + (match f(x) case Some(b) => [b] case None => [])
  {
    assert (s + [x])[..|s|] == s;
  }

  /**
    * `FilterMap` characterised by the positions it keeps: every output element is the image of an
    * input element, the positions strictly increase (input order is kept), and no element that `f`
    * keeps is dropped.
    */
  lemma {:induction false} FilterMapIndices<A, B>(s: seq<A>, f: A -> Option<B>) returns (idx: seq<nat>)
    ensures |idx| == |FilterMap(s, f)|
    ensures forall j :: 0 <= j < |idx| ==> idx[j] < |s| && f(s[idx[j]]) == Some(FilterMap(s, f)[j])
    ensures forall j, j' :: 0 <= j < j' < |idx| ==> idx[j] < idx[j']
    ensures forall i :: 0 <= i < |s| && f(s[i]).Some? ==> i in idx
  {
    if s == [] {
      idx := [];
    } else {
      var n := |s| - 1;
      var prev := FilterMapIndices(s[..n], f);
      var rp := FilterMap(s[..n], f);
      var r := FilterMap(s, f);
      assert forall i :: 0 <= i < n ==> s[..n][i] == s[i];
      if f(s[n]).Some? {
        assert r == rp + [f(s[n]).value];
        idx := prev + [n];
        forall j | 0 <= j < |idx|
          ensures idx[j] < |s| && f(s[idx[j]]) == Some(r[j])
        {
          if j < |prev| {
            assert r[j] == rp[j];
          }
        }
      } else {
        assert r == rp;
        idx := prev;
      }
    }
  }

  /** The element-to-option function that keeps exactly the elements satisfying `p`. */
  function KeepIf<A>(p: A -> bool): A -> Option<A>
  {
    x => if p(x) then Some(x) else None
  }

  /** Keeps, in order, the elements satisfying `p` (a comprehension with an `if` clause). */
  function Filter<A>(s: seq<A>, p: A -> bool): seq<A>
  {
    FilterMap(s, KeepIf(p))
  }

  /** An element is kept by `Filter` exactly when it occurs in the input and satisfies `p`. */
  lemma FilterMembership<A>(s: seq<A>, p: A -> bool)
    ensures forall x :: x in Filter(s, p) <==> x in s && p(x)
  {
    var idx := FilterMapIndices(s, KeepIf(p));
    var r := Filter(s, p);
    forall x | x in r
      ensures x in s && p(x)
    {
      var j :| 0 <= j < |r| && r[j] == x;
      assert KeepIf(p)(s[idx[j]]) == Some(x);
    }
    forall x | x in s && p(x)
      ensures x in r
    {
      var i :| 0 <= i < |s| && s[i] == x;
      assert KeepIf(p)(s[i]).Some?;
      var j :| 0 <= j < |idx| && idx[j] == i;
      assert KeepIf(p)(s[i]) == Some(r[j]);
    }
  }
}

=== FILE: wrappers.dfy ===
/** Optional values and results with an error, as used throughout the model. */
module Wrappers {

  /** A value that may be absent (Python's `None`). */
  datatype Option<+T> = None | Some(value: T)

  /** A computation that either yields a value or raises an error. */
  datatype Result<+T, +E> = Ok(value: T) | Err(error: E)
}
